=== FILE: README.md ===
# Pinned-projects reconciliation, modelled in Dafny

The hangfire service runs a job, `GithubPinnedProjects.Run`. The job copies
the repositories pinned on a GitHub profile into the `projects` collection of
a Strapi CMS. One run of the job does three things:

1. **Deletes stale entries.** It reads the CMS listings for the `en` and `cs`
   locales. Every listed entry whose title is not a pinned repository name
   gets a `DELETE /projects/{id}`.
2. **Writes each pinned repository twice.** For each pinned repository, in pin
   order, it builds a `Project` record:
   - title, stars, homepage, repository URL, license, total downloads and
     languages come from the repository itself;
   - for each loop tag `en` and `cz`, it fetches the README for that tag,
     falling back to `README.md` on a 404, and pulls an image URL and a
     description out of the README with a regular expression;
   - it then POSTs the record to `/projects`, or PUTs it to `/projects/{id}`
     when the CMS already lists an entry with that title in that locale.
3. **Reports progress.** After each repository it moves the progress bar to
   `(100 / totalCount) * k`. At the end it sets the bar to 100.

The model is purely functional. Network answers are inputs:

- `Reconcile.Services` holds the raw-file host (`fetchRaw`), the filtered CMS
  listing (`listProjects`) and the README pattern match (`extract`).
- A function `accepted` says, for the n-th write of the run (a DELETE, POST
  or PUT, counting from 0), whether the CMS answered it with 200. Answers go
  by position, so two equal writes can get different answers, as a repeated
  DELETE would. The read requests, to the CMS listings (lines 60, 61 and 123)
  and the raw-file host (lines 107 and 112), are answered by `Services` and
  are neither numbered nor traced.

`Reconcile.Run` returns a trace. The trace holds the writes sent,
"Request failed" log lines and progress values, plus the run's outcome. A run
either completes or stops after a repository's writes, in one of two ways:

- with the `DivideByZeroException` that C# raises when `totalCount` is 0;
- with the `ArgumentOutOfRangeException` that the Hangfire.Console progress
  bar raises for a value outside 0..100. That happens exactly when there is
  a node, `totalCount` is not 0, and the value for the last node,
  `(100 / totalCount) * n` for n nodes, lies outside 0..100. Examples are a
  positive `totalCount` of 1 with 2 nodes (value 200), or a `totalCount`
  from -100 to -1, which fails at the first node. A smaller `totalCount`
  does not always fail: 34 with 35 nodes tops out at 70, and 200 with 300
  nodes shows 0 throughout, as does any `totalCount` below -100.

Modules, one per file:

- `Wrappers`: `Option`.
- `Int32`: 32-bit wrap-around of unchecked C# `int` arithmetic.
- `GitHub`: the repository node.
- `Projects`: normalisation into `Project` and `Lang`.
- `Readme`: per-locale README handling.
- `Cms`: the delete set and the POST/PUT choice.
- `Progress`: the progress-bar arithmetic.
- `Reconcile`: one run as a trace.
- `RunProperties`: lemmas about whole runs.

The model keeps these details of the code:

- The POST/PUT decision uses a fresh CMS query per locale and title (line 123).
  It does not reuse the listing read for deletion.
- Deletion works per listed entry. The `en` listing followed by the `cs`
  listing is filtered on the title alone, so a stale title listed in both
  locales is deleted once per entry.
- The progress bar is set once per repository and once more with the forced
  100. That is `n + 1` calls, not `n`.
- The divisor is the reported `totalCount` (line 82), not the number of nodes.
- On any status other than 404, the README body is stored as `readme`, even for
  other error statuses.

## Model

| member | source | states |
|---|---|---|
| Int32.Wrap | hangfire/Jobs/GithubPinnedProjects.cs:98 | the result is the unique 32-bit value congruent to the exact sum modulo 2^32, which is how unchecked C# `int` addition overflows, and any value already in range is unchanged |
| Projects.AssetTotal | hangfire/Jobs/GithubPinnedProjects.cs:98 | the inner `Aggregate` left fold over asset download counts, done in 32-bit arithmetic, equals the wrap of the exact sum of the counts |
| Projects.ReleaseTotal | hangfire/Jobs/GithubPinnedProjects.cs:98 | the outer `Aggregate` over releases, each adding its inner total in 32-bit arithmetic, equals the wrap of the exact nested sum over all releases and assets |
| Projects.Downloads | hangfire/Jobs/GithubPinnedProjects.cs:98-99 | `downloads` is null exactly when the folded total is 0, and otherwise holds that total; when the exact sum fits in an `int` it is null for a sum of 0 and equals the sum otherwise |
| Projects.License | hangfire/Jobs/GithubPinnedProjects.cs:97 | `license` is null exactly when `licenseInfo` is not a JSON object, and is the object's `name` when it is one |
| Projects.Languages | hangfire/Jobs/GithubPinnedProjects.cs:100 | one language entry per edge, in edge order, keeping the edge's name, colour and size and the repository's total size |
| Projects.Normalise | hangfire/Jobs/GithubPinnedProjects.cs:91-100 | the project built before the locale loop carries the repository's name as title, its stars, homepage and URL, and the license, downloads and languages derived above |
| Projects.Localise | hangfire/Jobs/GithubPinnedProjects.cs:104-121 | one pass of the locale loop sets locale, readme, image URL and description, and keeps every field that came from the repository |
| Readme.StoreLocale | hangfire/Jobs/GithubPinnedProjects.cs:104 | the loop tag `cz` is stored under locale `cs`, and every other tag under itself |
| Readme.DefaultPath | hangfire/Jobs/GithubPinnedProjects.cs:112 | the fallback path `/<title>/master/README.md`; it has no contract of its own, and `Readme.ReadmePath`, `Readme.LoopTagsDistinct` and `Readme.FetchReadme` state how it is used |
| Readme.ReadmePath | hangfire/Jobs/GithubPinnedProjects.cs:107 | tag `en` requests the default `README.md` path, and any other tag requests `README.<tag>.md` |
| Readme.LoopTagsDistinct | hangfire/Jobs/GithubPinnedProjects.cs:102-107 | the two loop tags go to the distinct locales `en` and `cs`, and request the distinct files `README.md` and `README.cz.md` |
| Readme.FetchReadme | hangfire/Jobs/GithubPinnedProjects.cs:107-115 | `readme` is null exactly when the tag's README answered 404, and the pattern then runs on the default README's body; otherwise the stored `readme` and the matched document are both the fetched body |
| Readme.GroupValues | hangfire/Jobs/GithubPinnedProjects.cs:117-121 | on a match, the image URL and description are capture groups 1 and 2; on no match both are the empty string, never null |
| Cms.StaleEntries | hangfire/Jobs/GithubPinnedProjects.cs:60-63 | an entry is kept exactly when it is listed and its title is not pinned, and it is kept with the multiplicity it was listed with; `Cms.StaleEntriesKeepsOrder` and `Cms.StaleEntry` state that listing order is kept |
| Cms.StaleEntriesKeepsOrder | hangfire/Jobs/GithubPinnedProjects.cs:60-63 | the filter distributes over concatenation: the stale entries of a listing are those of its first part followed by those of the rest, so listing order is kept |
| Cms.StaleEntry | hangfire/Jobs/GithubPinnedProjects.cs:60-63 | a single listed entry is kept exactly when its title is not pinned, and then as itself |
| Cms.DeleteSet | hangfire/Jobs/GithubPinnedProjects.cs:58-63 | over the `en` and `cs` listings together: an entry is scheduled for deletion iff it is listed in either and its title is not a pinned name; no pinned title is scheduled, and a stale entry appears as often as it is listed in both locales together |
| Cms.DeleteSetOrder | hangfire/Jobs/GithubPinnedProjects.cs:58-72 | the stale `en` entries come first, in listing order, followed by the stale `cs` entries, in listing order |
| Cms.DeleteRequests | hangfire/Jobs/GithubPinnedProjects.cs:68-72 | one `DELETE` per scheduled entry, in order, addressed to that entry's id |
| Cms.FirstMatch | hangfire/Jobs/GithubPinnedProjects.cs:127-131 | finds no position exactly when no listed entry has the title; otherwise the position of an entry with that title that has no earlier entry with it |
| Cms.UpsertRequest | hangfire/Jobs/GithubPinnedProjects.cs:127-131 | POST exactly when no listed entry has the project's title; otherwise PUT to the id of the first listed entry with that title; the body is the project either way |
| Cms.SyncExample | hangfire/Jobs/GithubPinnedProjects.cs:58-131 | with `A` and `B` pinned and `A` (id 1) and `C` (id 3) listed, only `C` is deleted, `A` is updated with PUT to id 1 and `B` is created with POST |
| Progress.TruncDiv | hangfire/Jobs/GithubPinnedProjects.cs:144 | C# integer division: the remainder is smaller than the divisor in magnitude and has the sign of the dividend |
| Progress.TruncDivPositive | hangfire/Jobs/GithubPinnedProjects.cs:144 | for a non-negative dividend and a positive divisor, C# division agrees with floor division, and quotient times divisor never exceeds the dividend |
| Progress.AfterInRange | hangfire/Jobs/GithubPinnedProjects.cs:144 | after the k-th of n repositories, with k at most n, the value `(100 / n) * k` lies in 0..100 |
| Progress.AfterMonotone | hangfire/Jobs/GithubPinnedProjects.cs:144-145 | for a positive total, as the repository counter grows, the value never decreases |
| Progress.AfterMonotoneInBar | hangfire/Jobs/GithubPinnedProjects.cs:144-145 | for any nonzero total, once a value for a positive counter lies in 0..100, no later counter gives a smaller value |
| Progress.After | hangfire/Jobs/GithubPinnedProjects.cs:144 | the value `(100 / n) * k` with C# division; it has no contract of its own, and its properties are `Progress.AfterInRange`, `Progress.AfterMonotone`, `Progress.AfterMonotoneInBar` and `Progress.LastInLoopValue` |
| Progress.LastInLoopValue | hangfire/Jobs/GithubPinnedProjects.cs:144-147 | for a loop over m of at most n reported repositories, the last value set inside the loop is at most 100, and equals 100 exactly when m is n and n divides 100; otherwise only the final `SetValue(100)` reaches 100 |
| Reconcile.PinnedNames | hangfire/Jobs/GithubPinnedProjects.cs:58 | the pinned names are the repository names, one per node, in pin order |
| Reconcile.LocalisedProject | hangfire/Jobs/GithubPinnedProjects.cs:102-121 | the project sent for a tag carries the repository's shared fields, the tag's store locale, the README fallback's `readme`, and the group values of the pattern match on the fetched document |
| Reconcile.UpsertFor | hangfire/Jobs/GithubPinnedProjects.cs:123-131 | the write for a tag is never a delete and sends the localised project; it is a POST exactly when the CMS listing for that locale and title has no entry with the title |
| Reconcile.RepoRequests | hangfire/Jobs/GithubPinnedProjects.cs:102-142 | each repository produces exactly one write per loop tag, in loop order |
| RunProperties.SendAllObserved | hangfire/Jobs/GithubPinnedProjects.cs:68-79 | sending a batch sends every request of it, in order, whatever the CMS answers to each, and sets no progress value |
| RunProperties.SendAllLogsFailures | hangfire/Jobs/GithubPinnedProjects.cs:73-77 | a "Request failed" line is logged for exactly the requests of a batch whose own answer, by position in the run, was not 200, in order |
| RunProperties.RepoLoopOutcome | hangfire/Jobs/GithubPinnedProjects.cs:87-146 | the repository loop stops with a division by zero exactly when the reported total is 0 and a repository remains, and completes exactly when every value `(100 / n) * k` it computes lies in 0..100 |
| RunProperties.RepoLoopRequests | hangfire/Jobs/GithubPinnedProjects.cs:87-146 | the repository loop sends the writes of every repository it processes, in order |
| RunProperties.RepoLoopProgress | hangfire/Jobs/GithubPinnedProjects.cs:144-147 | the repository loop sets the scheduled values: one per repository, counting on from its counter, then 100, cut short at the first value that cannot be computed or shown |
| RunProperties.LoopRequestsShape | hangfire/Jobs/GithubPinnedProjects.cs:87-142 | with two writes per repository, writes 2i and 2i+1 of the loop are the first and second writes of the i-th repository |
| RunProperties.ScheduleShape | hangfire/Jobs/GithubPinnedProjects.cs:144-147 | while every value lies in 0..100, the scheduled progress sequence has one value per repository, the i-th being `(100 / n) * (counter + i)`, and ends with 100 |
| RunProperties.ScheduleBounded | hangfire/Jobs/GithubPinnedProjects.cs:144-147 | for any reported total, the values scheduled from a positive counter lie in 0..100 and never decrease |
| RunProperties.ScheduleOnBar | hangfire/Jobs/GithubPinnedProjects.cs:144-147 | when every value for the n repositories lies in 0..100, the schedule is those n values in order, then 100 |
| RunProperties.StaysOnBarAtLast | hangfire/Jobs/GithubPinnedProjects.cs:144 | every value `(100 / n) * k` for k = 1..count lies in 0..100 exactly when count is 0, or n is not 0 and the value for k = count does |
| RunProperties.UndercountedTotals | hangfire/Jobs/GithubPinnedProjects.cs:144 | totals 34 for 35 nodes, 200 for 300 nodes and -200 for 3 nodes keep every value in 0..100; totals -1 for 1 node and 1 for 2 nodes do not |
| RunProperties.StepsCoverAll | hangfire/Jobs/GithubPinnedProjects.cs:87-145 | the loop processes all of its repositories exactly when there is at most one, or the total is not 0 and the value of every repository but the last lies in 0..100; the last one's writes go out before its value is set |
| RunProperties.ProcessedAll | hangfire/Jobs/GithubPinnedProjects.cs:87-145 | a run whose every value lies in 0..100 processes every repository; one with a total of 0 and a node processes exactly the first |
| RunProperties.WithinTotalStaysOnBar | hangfire/Jobs/GithubPinnedProjects.cs:144 | with a positive total and at most that many repositories, every value computed lies in 0..100 |
| RunProperties.RunRequests | hangfire/Jobs/GithubPinnedProjects.cs:57-146 | a run sends one DELETE per stale listed entry, and then the writes of every repository it processes, in pin order |
| RunProperties.RunLogsFailures | hangfire/Jobs/GithubPinnedProjects.cs:73-141 | over a whole run, deletes and writes alike, a failure line follows exactly the requests the CMS rejected |
| RunProperties.LoopHasNoDeletes | hangfire/Jobs/GithubPinnedProjects.cs:123-131 | the repository loop never sends a DELETE |
| RunProperties.RunDeletedIds | hangfire/Jobs/GithubPinnedProjects.cs:60-72 | a run sends `DELETE` for an id exactly when some stale listed entry has that id |
| RunProperties.DeletedIdsOf | hangfire/Jobs/GithubPinnedProjects.cs:68-72 | in a batch of deletes followed by writes that are not deletes, the deleted ids are exactly those of the batch |
| RunProperties.RunDeletes | hangfire/Jobs/GithubPinnedProjects.cs:58-72 | when store ids identify entries, a listed entry is deleted iff its title is not pinned: no pinned title is deleted, and a stale title is deleted under every locale it is listed in |
| RunProperties.SynchronisedStoreNoDeletes | hangfire/Jobs/GithubPinnedProjects.cs:58-72 | when every listed title is pinned, a run sends no DELETE at all |
| RunProperties.RepositoryWrites | hangfire/Jobs/GithubPinnedProjects.cs:91-104 | a repository's two writes are the `en` entry and then the `cs` entry; both carry the repository's shared fields, so they agree on title, stars, URLs, license, downloads and languages |
| RunProperties.RunWriteOrder | hangfire/Jobs/GithubPinnedProjects.cs:87-142 | after the deletes, a run sends, for each processed repository in pin order, its `en` write followed by its `cz` write, and nothing else |
| RunProperties.RunCompletedWrites | hangfire/Jobs/GithubPinnedProjects.cs:87-147 | a completed run sends, after the deletes, exactly two writes per pinned repository, in pin order: its `en` upsert and then its `cz` upsert, stored under `cs` |
| RunProperties.RunDivideByZeroWrites | hangfire/Jobs/GithubPinnedProjects.cs:87-144 | a run stopped by a total of 0 has sent, after the deletes, only the first repository's `en` and `cz` writes |
| RunProperties.RunOutcome | hangfire/Jobs/GithubPinnedProjects.cs:144-147 | a run stops with a division by zero exactly when the reported total is 0 and there is a node, and then no progress value was set; it completes exactly when every value `(100 / n) * k` for its nodes lies in 0..100; otherwise the progress bar's range error stops it |
| RunProperties.RunRangeError | hangfire/Jobs/GithubPinnedProjects.cs:144 | a run stops with the progress bar's range error exactly when there is a node, the reported total is not 0, and the value for the last node, `(100 / n) * nodes`, lies outside 0..100 |
| RunProperties.RunWithinTotalCompletes | hangfire/Jobs/GithubPinnedProjects.cs:82-147 | a run whose reported total is positive and covers every node completes |
| RunProperties.OverCountedRunStops | hangfire/Jobs/GithubPinnedProjects.cs:82-147 | with a reported total of 1 and two nodes, the bar shows 100 after the first node and the run stops with the range error at the second |
| RunProperties.RunSchedule | hangfire/Jobs/GithubPinnedProjects.cs:144-147 | a run sets exactly the scheduled progress values, whatever the CMS answers |
| RunProperties.RunProgress | hangfire/Jobs/GithubPinnedProjects.cs:144-147 | a run whose computed values all lie in 0..100 sets, after the k-th repository, `(100 / n) * k`, then 100, and nothing else |
| RunProperties.RunProgressMonotone | hangfire/Jobs/GithubPinnedProjects.cs:144-147 | for any reported total, the progress values a run sets lie in 0..100 and never decrease |
| RunProperties.FailuresDoNotStopRun | hangfire/Jobs/GithubPinnedProjects.cs:136-142 | CMS answers other than 200 change only the log: the same requests are sent, the same progress values set, and the run ends the same way |
| Reconcile.SendAll | hangfire/Jobs/GithubPinnedProjects.cs:68-79 | sends a batch in order, each request followed by a failure line when its answer is not 200; it has no contract of its own, and its properties are `RunProperties.SendAllObserved` and `RunProperties.SendAllLogsFailures` |
| Reconcile.RepoLoop | hangfire/Jobs/GithubPinnedProjects.cs:87-147 | the repository loop; it has no contract of its own, and its properties are the `RunProperties.RepoLoop*` lemmas |
| Reconcile.Steps | hangfire/Jobs/GithubPinnedProjects.cs:87-145 | the loop processes at most its repositories, and at least one when there is any, since a repository's writes go out before its value is set; `RunProperties.StepsCoverAll` states when it processes all of them |
| Reconcile.Run | hangfire/Jobs/GithubPinnedProjects.cs:47-148 | the whole job; it has no contract of its own, and its properties are the `RunProperties.Run*` lemmas, `RunProperties.SynchronisedStoreNoDeletes` and `RunProperties.FailuresDoNotStopRun` |

## Left out

- HTTP and JSON plumbing is not modelled (lines 12-16, 49-55). This covers the RestSharp clients, the bearer tokens from environment variables, the GraphQL query file and `JObject.Parse` navigation. Responses are inputs. A malformed or missing field, which would throw in C#, is not modelled.
- A CMS listing that is not JSON is not modelled. On line 123 an outage page, a 5xx body or null content makes `JObject.Parse` throw, which ends the run in the middle of the loop, before that repository's write. `Reconcile.Outcome` has no such stop: the model always receives a listing. A failed write, by contrast, is only logged (lines 136-141), and that is modelled.
- The pinned nodes and `totalCount` are separate inputs, and the model does not assume they agree. A `totalCount` of 0 with a node stops the run with the division by zero. The range error happens exactly when there is a node, `totalCount` is not 0, and the last value `(100 / totalCount) * n` lies outside 0..100, as stated by `RunProperties.RunRangeError`.
- The Hangfire.Console progress bar is not part of this model. Its `SetValue` is taken to accept exactly the values 0..100 and to throw `ArgumentOutOfRangeException` for any other value.
- The regular expression on line 117 is the parameter `extract`, and its .NET backtracking semantics are not modelled. Only the mapping of the match to group values is modelled.
- The raw-file host is the pure function `fetchRaw` of the path. It answers the same path the same way every time. For the `en` tag, the fallback on line 112 asks for the same path as line 107, so the model repeats the 404. A transient 404 followed by a 200 cannot be expressed. No lemma depends on this.
- The CMS listing used for the POST/PUT choice is the pure function `listProjects` of locale and title. The model does not track how the store changes as the run writes to it. Each (locale, title) pair is queried once per run when pinned names are distinct.
- The float `ratio` of `Lang` (line 100) is not modelled. The model keeps the integer `size` and `totalSize` it is computed from.
- Console output other than the "Request failed" lines and the progress values is not modelled. That covers colours, `WriteLine` text and the insert/update log line.
- Progress.After: the product `(100 / n) * k` is not wrapped to 32 bits. Overflow needs more than 21 million repositories.
- A null README body is not modelled. In C# it would make `Regex.Match` throw, and RestSharp returns the empty string for an empty body.
- RunProperties.RunDeletes: it assumes store ids identify entries across both listings. Without that assumption, a pinned entry that shares its id with a stale entry would lose it. `RunProperties.RunDeletedIds` states the id-level fact with no assumption.
- Cancellation and per-call timeouts are not modelled. The job has neither.
- `hangfire/Jobs/Occupancy.cs` is not modelled. It is HTML scraping and Prometheus gauges, and its only arithmetic is `45 - sauna`.
- `hangfire/Program.cs` is not modelled. It is host bootstrap, storage, dashboard and cron registration.
- `hangfire/HangFireAuthorizationFilter.cs` is not modelled. It always returns true.

=== FILE: cms.dfy ===
/** The CMS side of the job: listed entries, the requests sent to the
    `/projects` endpoint, the choice of entries to delete and the choice
    between creating and updating an entry. */
module Cms {
  import opened Wrappers
  import opened Projects

  /** One element of a `/projects` listing: the store-assigned id and the
      title attribute. */
  datatype Entry = Entry(id: int, title: string)

  /** A write to the CMS: `DELETE /projects/{id}`, `POST /projects` with the
      project as body, or `PUT /projects/{id}` with the project as body. */
  datatype Request = Delete(id: int) | Post(project: Project) | Put(id: int, project: Project)

  // ---------------------------------------------------------------------------
  // Delete set

  /** The listed entries whose title is not a pinned repository name; every
      such entry is kept as often as it is listed. */
  function StaleEntries(pinned: seq<string>, listed: seq<Entry>): (stale: seq<Entry>)
    ensures forall e :: e in stale <==> e in listed && e.title !in pinned
    ensures forall e: Entry :: multiset(stale)[e] == if e.title in pinned then 0 else multiset(listed)[e]
    ensures |stale| <= |listed|
  {
    if |listed| == 0 then []
    else
      var rest := StaleEntries(pinned, listed[1..]);
      assert listed == [listed[0]] + listed[1..];
      assert multiset(listed) == multiset{listed[0]} + multiset(listed[1..]);
      if listed[0].title in pinned then rest else [listed[0]] + rest
  }

  /** The order-preserving filter behind `StaleEntries`, without its
      quantified contract, so that proofs about order stay small. */
  ghost function KeepUnpinned(pinned: seq<string>, listed: seq<Entry>): seq<Entry>
  {
    if |listed| == 0 then []
    else (if listed[0].title in pinned then [] else [listed[0]]) + KeepUnpinned(pinned, listed[1..])
  }

  lemma {:induction false} KeepUnpinnedAppend(pinned: seq<string>, a: seq<Entry>, b: seq<Entry>)
    ensures KeepUnpinned(pinned, a + b) == KeepUnpinned(pinned, a) + KeepUnpinned(pinned, b)
    decreases |a|
  {
    if |a| == 0 {
      assert a + b == b;
    } else {
      assert (a + b)[0] == a[0];
      assert (a + b)[1..] == a[1..] + b;
      KeepUnpinnedAppend(pinned, a[1..], b);
    }
  }

  lemma {:induction false} StaleEntriesFilter(pinned: seq<string>, listed: seq<Entry>)
    ensures StaleEntries(pinned, listed) == KeepUnpinned(pinned, listed)
    decreases |listed|
  {
    if |listed| > 0 {
      StaleEntriesFilter(pinned, listed[1..]);
    }
  }

  /** The filter keeps listing order: it distributes over concatenation and
      maps a single entry to itself or to nothing (`StaleEntry`), which
      together fix it as the order-preserving filter. */
  lemma StaleEntriesKeepsOrder(pinned: seq<string>, a: seq<Entry>, b: seq<Entry>)
    ensures StaleEntries(pinned, a + b) == StaleEntries(pinned, a) + StaleEntries(pinned, b)
  {
    StaleEntriesFilter(pinned, a + b);
    StaleEntriesFilter(pinned, a);
    StaleEntriesFilter(pinned, b);
    KeepUnpinnedAppend(pinned, a, b);
  }

  /** A single listed entry is kept exactly when its title is not pinned. */
  lemma StaleEntry(pinned: seq<string>, e: Entry)
    ensures StaleEntries(pinned, [e]) == if e.title in pinned then [] else [e]
  {
    assert [e][1..] == [];
  }

  /** The stale `en` entries are deleted first, in listing order, then the
      stale `cs` entries, in listing order. */
  lemma DeleteSetOrder(pinned: seq<string>, en: seq<Entry>, cs: seq<Entry>)
    ensures DeleteSet(pinned, en, cs) == StaleEntries(pinned, en) + StaleEntries(pinned, cs)
  {
    StaleEntriesKeepsOrder(pinned, en, cs);
  }

  /** The entries the job deletes: the `en` listing followed by the `cs`
      listing, keeping those whose title is not pinned. */
  function DeleteSet(pinned: seq<string>, en: seq<Entry>, cs: seq<Entry>): (stale: seq<Entry>)
    ensures forall e :: e in stale <==> (e in en || e in cs) && e.title !in pinned
    ensures forall e: Entry :: e.title !in pinned ==> multiset(stale)[e] == multiset(en)[e] + multiset(cs)[e]
    ensures forall e :: e in stale ==> e.title !in pinned
  {
    StaleEntries(pinned, en + cs)
  }

  /** One `DELETE` per stale entry, in order. */
  function DeleteRequests(stale: seq<Entry>): (reqs: seq<Request>)
    ensures |reqs| == |stale|
    ensures forall i :: 0 <= i < |stale| ==> reqs[i] == Delete(stale[i].id)
  {
    seq(|stale|, i requires 0 <= i < |stale| => Delete(stale[i].id))
  }

  // ---------------------------------------------------------------------------
  // Create or update

  /** The position of the first listed entry whose title equals `title`. */
  function FirstMatch(listed: seq<Entry>, title: string): (k: Option<nat>)
    ensures k.None? <==> forall e :: e in listed ==> e.title != title
    ensures k.Some? ==> k.value < |listed| && listed[k.value].title == title
    ensures k.Some? ==> forall j :: 0 <= j < k.value ==> listed[j].title != title
  {
    if |listed| == 0 then None
    else if listed[0].title == title then Some(0)
    else
      match FirstMatch(listed[1..], title)
      case None => None
      case Some(k) => Some(k + 1)
  }

  /** The write for a project: POST when no listed entry has its title,
      otherwise PUT to the id of the first entry that has. */
  function UpsertRequest(listed: seq<Entry>, p: Project): (req: Request)
    ensures !req.Delete? && req.project == p
    ensures req.Post? <==> forall e :: e in listed ==> e.title != p.title
    ensures req.Put? ==> exists k :: 0 <= k < |listed| && listed[k].id == req.id && listed[k].title == p.title
                                     && forall j :: 0 <= j < k ==> listed[j].title != p.title
  {
    match FirstMatch(listed, p.title)
    case None => Post(p)
    case Some(k) => Put(listed[k].id, p)
  }

  /** Pinned `A` and `B` against a store listing `A` (id 1) and `C` (id 3):
      `C` is deleted, `A` is updated in place and `B` is created. */
  lemma SyncExample(pA: Project, pB: Project)
    requires pA.title == "A" && pB.title == "B"
    ensures DeleteSet(["A", "B"], [Entry(1, "A"), Entry(3, "C")], []) == [Entry(3, "C")]
    ensures UpsertRequest([Entry(1, "A")], pA) == Put(1, pA)
    ensures UpsertRequest([], pB) == Post(pB)
  {
    assert [Entry(1, "A"), Entry(3, "C")] + [] == [Entry(1, "A"), Entry(3, "C")];
    assert [Entry(1, "A"), Entry(3, "C")][1..] == [Entry(3, "C")];
    assert [Entry(3, "C")][1..] == [];
  }
}

=== FILE: github.dfy ===
/** The shape of one pinned-repository node of the GitHub GraphQL answer,
    reduced to the fields the job reads. Stars and download counts are read
    with a C# `(int)` cast, hence `int32`. The language sizes are GitHub
    integers too and are kept as such; the job converts them to `float` to
    divide them, which is left out. */
module GitHub {
  import opened Wrappers
  import opened Int32

  datatype Asset = Asset(downloadCount: int32)

  datatype Release = Release(releaseAssets: seq<Asset>)

  /** `licenseInfo` is either JSON `null` (no object) or an object with a name. */
  datatype LicenseInfo = NotAnObject | LicenseObject(name: string)

  /** One `languages.edges` element: the language node's name and colour
      (GitHub has no colour for some languages) and the edge's byte size. */
  datatype LanguageEdge = LanguageEdge(name: string, color: Option<string>, size: int32)

  datatype Repository = Repository(
    name: string,
    stargazerCount: int32,
    homepageUrl: Option<string>,
    url: string,
    licenseInfo: LicenseInfo,
    releases: seq<Release>,
    languages: seq<LanguageEdge>,
    totalSize: int32)
}

=== FILE: int32.dfy ===
/** 32-bit signed integers and the wrap-around of unchecked C# `int`
    arithmetic, which is what `Enumerable.Aggregate(0, (acc, x) => acc + x)`
    performs when the sum leaves the `int` range. */
module Int32 {

  const Modulus: int := 0x1_0000_0000
  const MinValue: int := -0x8000_0000
  const MaxValue: int := 0x7FFF_FFFF

  newtype int32 = x: int | -0x8000_0000 <= x < 0x8000_0000

  /** The two's-complement truncation of an exact integer to 32 bits: the
      unique `int32` congruent to `x` modulo 2^32. */
  function Wrap(x: int): (r: int32)
    ensures (r as int - x) % Modulus == 0
    ensures MinValue <= x <= MaxValue ==> r as int == x
  {
    var m := x % Modulus;
    if m < 0x8000_0000 then m as int32 else (m - Modulus) as int32
  }

  /** Two integers that agree modulo 2^32 wrap to the same `int32`. */
  lemma WrapCongruent(x: int, y: int)
    requires (x - y) % Modulus == 0
    ensures Wrap(x) == Wrap(y)
  {
    var rx, ry := Wrap(x) as int, Wrap(y) as int;
    var a, b, c := rx - x, x - y, y - ry;
    assert a == Modulus * (a / Modulus);
    assert b == Modulus * (b / Modulus);
    assert c == Modulus * (c / Modulus);
    var q := a / Modulus + b / Modulus + c / Modulus;
    assert rx - ry == Modulus * q;
    assert -Modulus < rx - ry < Modulus;
  }

  /** Adding to an already wrapped value wraps to the same result as adding
      to the exact value: the step that lets a wrapping fold be compared with
      an exact sum. */
  lemma WrapAddWrapped(x: int, y: int)
    ensures Wrap(Wrap(x) as int + y) == Wrap(x + y)
  {
    WrapCongruent(Wrap(x) as int + y, x + y);
  }

  /** Adding two wrapped values wraps to the wrap of the exact sum. */
  lemma WrapAddBoth(x: int, y: int)
    ensures Wrap(Wrap(x) as int + Wrap(y) as int) == Wrap(x + y)
  {
    WrapCongruent(Wrap(x) as int + Wrap(y) as int, x + y);
  }
}

=== FILE: progress.dfy ===
/** The progress-bar values of the job: after the k-th repository the bar is
    set to `(100 / n) * k`, where `n` is the reported total number of pinned
    items and `/` is C# integer division; after the loop it is set to 100. */
module Progress {

  function Abs(x: int): nat
  {
    if x < 0 then -x else x
  }

  /** C# integer division, which truncates toward zero (Dafny's `/` is
      Euclidean and differs for negative operands). */
  function TruncDiv(a: int, b: int): (q: int)
    requires b != 0
    ensures Abs(a - b * q) < Abs(b)
    ensures a - b * q == 0 || (a - b * q < 0) == (a < 0)
  {
    if a >= 0 && b > 0 then a / b
    else if a >= 0 then -(a / -b)
    else if b > 0 then -((-a) / b)
    else (-a) / (-b)
  }

  /** The value set after the k-th repository (counting from 1). */
  function After(n: int, k: int): int
    requires n != 0
  {
    TruncDiv(100, n) * k
  }

  /** The value set once the loop has finished, whatever was shown before. */
  const Final: int := 100

  /** The values the progress bar accepts; setting any other value throws an
      `ArgumentOutOfRangeException`. */
  predicate InBar(v: int)
  {
    0 <= v <= 100
  }

  /** For a positive total, the truncating and the Euclidean quotient agree. */
  lemma {:induction false} TruncDivPositive(a: nat, b: int)
    requires b > 0
    ensures TruncDiv(a, b) == a / b
    ensures 0 <= b * TruncDiv(a, b) <= a
  {
    var q := a / b;
    assert a == b * q + a % b;
    assert 0 <= q;
    MulMonotone(b, 0, q);
  }

  /** While at most `n` repositories have been processed the bar shows a
      percentage between 0 and 100. */
  lemma {:induction false} AfterInRange(n: int, k: int)
    requires 0 < n && 0 <= k <= n
    ensures 0 <= After(n, k) <= 100
  {
    var q := TruncDiv(100, n);
    TruncDivPositive(100, n);
    assert 0 <= q;
    MulMonotone(q, k, n);
    assert q * n == n * q;
  }

  /** The bar never moves backwards from one repository to the next. */
  lemma {:induction false} AfterMonotone(n: int, k: int, l: int)
    requires 0 < n && 0 <= k <= l
    ensures After(n, k) <= After(n, l)
  {
    TruncDivPositive(100, n);
    MulMonotone(TruncDiv(100, n), k, l);
  }

  /** Whatever the sign of the total, once a value has been accepted by the
      bar the next one is no smaller: a negative quotient would already have
      given a negative first value. */
  lemma {:induction false} AfterMonotoneInBar(n: int, k: int, l: int)
    requires n != 0 && 1 <= k <= l && InBar(After(n, k))
    ensures After(n, k) <= After(n, l)
  {
    var q := TruncDiv(100, n);
    NegativeTimesPositive(q, k);
    MulMonotone(q, k, l);
  }

  lemma NegativeTimesPositive(q: int, k: int)
    requires 1 <= k
    ensures q < 0 ==> q * k < 0
  {
    if q < 0 {
      MulMonotone(-q, 1, k);
      assert (-q) * k == -(q * k);
    }
  }

  lemma MulMonotone(q: nat, k: int, l: int)
    requires k <= l
    ensures q * k <= q * l
  {
    assert q * l - q * k == q * (l - k);
  }

  /** The last in-loop value, for a loop over `m` of at most `n` reported
      repositories, is at most 100, and reaches 100 exactly when the loop
      covers all `n` and `n` divides 100; otherwise rounding or the missing
      repositories leave it short, and only the final value shows 100. */
  lemma {:induction false} LastInLoopValue(n: int, m: int)
    requires 0 < m <= n
    ensures After(n, m) <= Final
    ensures After(n, m) == Final <==> m == n && 100 % n == 0
  {
    var q := 100 / n;
    TruncDivPositive(100, n);
    assert 100 == n * q + 100 % n;
    assert After(n, m) == q * m;
    MulMonotone(q, m, n);
    if m < n && q > 0 {
      MulMonotone(q, m, n - 1);
      assert q * (n - 1) == q * n - q;
    }
  }

}

=== FILE: projects.dfy ===
/** The CMS `Project` record and its normalisation from a repository node:
    the locale-independent fields are computed once per repository, before
    the locale loop, and the locale-specific ones are overwritten for each
    locale. */
module Projects {
  import opened Wrappers
  import opened Int32
  import opened GitHub

  /** A language entry. The source also stores the float `size / totalSize`;
      the model keeps the two integers it is computed from. */
  datatype Lang = Lang(language: string, color: Option<string>, size: int32, totalSize: int32)

  datatype Project = Project(
    title: string,
    description: string,
    stars: int32,
    homepageURL: Option<string>,
    repoURL: string,
    license: Option<string>,
    downloads: Option<int32>,
    imgURL: string,
    lang: seq<Lang>,
    readme: Option<string>,
    locale: string)

  // ---------------------------------------------------------------------------
  // Download counts

  /** Exact (unbounded) number of downloads of a list of assets. */
  function AssetSum(assets: seq<Asset>): int
  {
    if |assets| == 0 then 0
    else AssetSum(assets[..|assets| - 1]) + assets[|assets| - 1].downloadCount as int
  }

  /** Exact (unbounded) number of downloads over all releases. */
  function DownloadSum(releases: seq<Release>): int
  {
    if |releases| == 0 then 0
    else DownloadSum(releases[..|releases| - 1]) + AssetSum(releases[|releases| - 1].releaseAssets)
  }

  /** The inner `Aggregate`: a left fold in unchecked 32-bit arithmetic. */
  function AssetTotal(assets: seq<Asset>): (t: int32)
    ensures t == Wrap(AssetSum(assets))
  {
    if |assets| == 0 then 0
    else
      var prefix := assets[..|assets| - 1];
      var last := assets[|assets| - 1].downloadCount as int;
      WrapAddWrapped(AssetSum(prefix), last);
      Wrap(AssetTotal(prefix) as int + last)
  }

  /** The outer `Aggregate`: per release, the inner total is added to the
      accumulator, again in unchecked 32-bit arithmetic. */
  function ReleaseTotal(releases: seq<Release>): (t: int32)
    ensures t == Wrap(DownloadSum(releases))
  {
    if |releases| == 0 then 0
    else
      var prefix := releases[..|releases| - 1];
      var inner := AssetTotal(releases[|releases| - 1].releaseAssets);
      var exactInner := AssetSum(releases[|releases| - 1].releaseAssets);
      WrapAddBoth(DownloadSum(prefix), exactInner);
      Wrap(ReleaseTotal(prefix) as int + inner as int)
  }

  /** The `downloads` field: the folded total, with 0 turned into `null`. */
  function Downloads(releases: seq<Release>): (d: Option<int32>)
    ensures d.None? <==> Wrap(DownloadSum(releases)) == 0
    ensures d.Some? ==> d.value == Wrap(DownloadSum(releases))
    ensures MinValue <= DownloadSum(releases) <= MaxValue ==>
              d == (if DownloadSum(releases) == 0 then None else Some(DownloadSum(releases) as int32))
  {
    var total := ReleaseTotal(releases);
    if total == 0 then None else Some(total)
  }

  // ---------------------------------------------------------------------------
  // License and languages

  /** The `license` field: the license name when `licenseInfo` is a JSON
      object, `null` otherwise. */
  function License(info: LicenseInfo): (l: Option<string>)
    ensures l.None? <==> !info.LicenseObject?
    ensures info.LicenseObject? ==> l == Some(info.name)
  {
    match info
    case LicenseObject(name) => Some(name)
    case NotAnObject => None
  }

  /** The `lang` array: one entry per language edge, in edge order, keeping
      the language name, colour and size. */
  function Languages(edges: seq<LanguageEdge>, totalSize: int32): (ls: seq<Lang>)
    ensures |ls| == |edges|
    ensures forall i :: 0 <= i < |edges| ==>
              ls[i].language == edges[i].name && ls[i].color == edges[i].color
              && ls[i].size == edges[i].size && ls[i].totalSize == totalSize
  {
    seq(|edges|, i requires 0 <= i < |edges| => Lang(edges[i].name, edges[i].color, edges[i].size, totalSize))
  }

  // ---------------------------------------------------------------------------
  // Normalisation

  /** The fields a repository determines on its own, shared by every locale. */
  ghost predicate SharedFrom(p: Project, r: Repository)
  {
    && p.title == r.name
    && p.stars == r.stargazerCount
    && p.homepageURL == r.homepageUrl
    && p.repoURL == r.url
    && p.license == License(r.licenseInfo)
    && p.downloads == Downloads(r.releases)
    && p.lang == Languages(r.languages, r.totalSize)
  }

  /** The project as built before the locale loop starts. The locale-specific
      fields are placeholders here; every one of them is overwritten before
      the project is sent. */
  function Normalise(r: Repository): (p: Project)
    ensures SharedFrom(p, r)
  {
    Project(
      title := r.name,
      description := "",
      stars := r.stargazerCount,
      homepageURL := r.homepageUrl,
      repoURL := r.url,
      license := License(r.licenseInfo),
      downloads := Downloads(r.releases),
      imgURL := "",
      lang := Languages(r.languages, r.totalSize),
      readme := None,
      locale := "")
  }

  /** Overwrites the locale-specific fields, as one pass of the locale loop
      does; everything else is left as it was. */
  function Localise(p: Project, locale: string, readme: Option<string>, imgURL: string, description: string): (q: Project)
    ensures q.locale == locale && q.readme == readme && q.imgURL == imgURL && q.description == description
    ensures forall r: Repository :: SharedFrom(p, r) ==> SharedFrom(q, r)
  {
    p.(locale := locale, readme := readme, imgURL := imgURL, description := description)
  }

  /** Two projects that share their repository fields. */
  predicate SameShared(a: Project, b: Project)
  {
    && a.title == b.title && a.stars == b.stars && a.homepageURL == b.homepageURL
    && a.repoURL == b.repoURL && a.license == b.license && a.downloads == b.downloads
    && a.lang == b.lang
  }
}

=== FILE: readme.dfy ===
/** Per-locale README handling: the loop tags, the CMS locale each maps to,
    the raw-file path requested, the fallback on 404, and the mapping of the
    README pattern match to the `imgURL` and `description` fields. */
module Readme {
  import opened Wrappers

  /** The locale loop runs over these tags, in this order. */
  const LoopTags: seq<string> := ["en", "cz"]

  const NotFound: int := 404

  /** An HTTP answer of the raw-file host: status code and body. */
  datatype Response = Response(status: int, content: string)

  /** The locale the CMS entry is stored under: the tag `cz` is stored as
      `cs`, every other tag as itself. */
  function StoreLocale(tag: string): (locale: string)
    ensures tag == "cz" ==> locale == "cs"
    ensures tag != "cz" ==> locale == tag
  {
    if tag == "cz" then "cs" else tag
  }

  /** The raw-file path of the default README of a repository. */
  function DefaultPath(title: string): string
  {
    "/" + title + "/master/README.md"
  }

  /** The raw-file path requested first for a tag: no infix for `en`, the
      infix `.<tag>` otherwise. */
  function ReadmePath(title: string, tag: string): (path: string)
    ensures tag == "en" ==> path == DefaultPath(title)
    ensures tag != "en" ==> path == "/" + title + "/master/README." + tag + ".md"
  {
    "/" + title + "/master/README" + (if tag == "en" then "" else "." + tag) + ".md"
  }

  /** The locale tags map to distinct CMS locales and request distinct files. */
  lemma LoopTagsDistinct(title: string)
    ensures StoreLocale(LoopTags[0]) == "en" && StoreLocale(LoopTags[1]) == "cs"
    ensures ReadmePath(title, LoopTags[0]) == DefaultPath(title)
    ensures ReadmePath(title, LoopTags[1]) == "/" + title + "/master/README.cz.md"
    ensures ReadmePath(title, LoopTags[0]) != ReadmePath(title, LoopTags[1])
  {
    assert |ReadmePath(title, LoopTags[0])| + 3 == |ReadmePath(title, LoopTags[1])|;
  }

  /** The document the pattern is matched against and the value stored as
      `readme`. */
  datatype ReadmeDoc = ReadmeDoc(document: string, readme: Option<string>)

  /** Fetches the README for a tag. On 404 the default README is fetched
      instead, its body is matched against the pattern, and `readme` is
      null; for any other status the body is both matched and stored. */
  function FetchReadme(fetch: string -> Response, title: string, tag: string): (d: ReadmeDoc)
    ensures d.readme.None? <==> fetch(ReadmePath(title, tag)).status == NotFound
    ensures d.readme.Some? ==> d.readme.value == d.document == fetch(ReadmePath(title, tag)).content
    ensures d.readme.None? ==> d.document == fetch(DefaultPath(title)).content
  {
    var first := fetch(ReadmePath(title, tag));
    if first.status == NotFound then ReadmeDoc(fetch(DefaultPath(title)).content, None)
    else ReadmeDoc(first.content, Some(first.content))
  }

  /** Capture groups 1 and 2 of the README pattern. */
  datatype Captures = Captures(imgURL: string, description: string)

  /** The group values read after the match: the captured strings on a match,
      and on a failed match the empty string for both, which is what an
      unmatched .NET group reports as its value. */
  function GroupValues(m: Option<(string, string)>): (c: Captures)
    ensures m.Some? ==> c.imgURL == m.value.0 && c.description == m.value.1
    ensures m.None? ==> c.imgURL == "" && c.description == ""
  {
    match m
    case Some((img, desc)) => Captures(img, desc)
    case None => Captures("", "")
  }
}

=== FILE: reconcile.dfy ===
/** One run of the pinned-projects job as a trace of events: the deletes of
    unpinned CMS entries, then for each pinned repository one write per
    locale followed by a progress value, then the final progress value.
    The network is abstracted as a record of answer functions; whether the
    CMS answered 200 to the n-th write (DELETE, POST or PUT) of the run only
    decides whether a "Request failed" line is logged. The read requests of
    the run, to the CMS listings and the raw-file host, are not numbered. */
module Reconcile {
  import opened Wrappers
  import opened GitHub
  import opened Projects
  import opened Readme
  import opened Cms
  import opened Progress

  /** The answers of the outside world: the raw-file host by path, the CMS
      listing filtered by (locale, title), and the README pattern match. */
  datatype Services = Services(
    fetchRaw: string -> Response,
    listProjects: (string, string) -> seq<Entry>,
    extract: string -> Option<(string, string)>)

  datatype Event = Sent(request: Request) | RequestFailed(request: Request) | ProgressSet(value: int)

  /** A run either finishes, or stops after a repository's writes: with a
      `DivideByZeroException` when the reported total is 0, or with an
      `ArgumentOutOfRangeException` when the value for the progress bar lies
      outside 0..100. */
  datatype Outcome = Completed | DivideByZero | OutOfRange

  datatype Trace = Trace(events: seq<Event>, outcome: Outcome)

  // ---------------------------------------------------------------------------
  // The steps of a run

  /** The pinned repository names, in pin order. */
  function PinnedNames(repos: seq<Repository>): (names: seq<string>)
    ensures |names| == |repos|
    ensures forall i :: 0 <= i < |repos| ==> names[i] == repos[i].name
  {
    seq(|repos|, i requires 0 <= i < |repos| => repos[i].name)
  }

  /** The project sent for one repository under one loop tag. */
  function LocalisedProject(svc: Services, r: Repository, tag: string): (p: Project)
    ensures SharedFrom(p, r)
    ensures p.locale == StoreLocale(tag)
    ensures p.readme == FetchReadme(svc.fetchRaw, r.name, tag).readme
    ensures var c := GroupValues(svc.extract(FetchReadme(svc.fetchRaw, r.name, tag).document));
            p.imgURL == c.imgURL && p.description == c.description
  {
    var doc := FetchReadme(svc.fetchRaw, r.name, tag);
    var groups := GroupValues(svc.extract(doc.document));
    Localise(Normalise(r), StoreLocale(tag), doc.readme, groups.imgURL, groups.description)
  }

  /** The write for one repository under one loop tag, chosen against the
      CMS listing of that locale and title. */
  function UpsertFor(svc: Services, r: Repository, tag: string): (req: Request)
    ensures !req.Delete? && req.project == LocalisedProject(svc, r, tag)
    ensures req.Post? <==> forall e :: e in svc.listProjects(StoreLocale(tag), r.name) ==> e.title != r.name
  {
    UpsertRequest(svc.listProjects(StoreLocale(tag), r.name), LocalisedProject(svc, r, tag))
  }

  /** The writes for one repository: one per loop tag, in loop order. */
  function RepoRequests(svc: Services, r: Repository): (reqs: seq<Request>)
    ensures |reqs| == |LoopTags|
    ensures forall i :: 0 <= i < |LoopTags| ==> reqs[i] == UpsertFor(svc, r, LoopTags[i])
  {
    seq(|LoopTags|, i requires 0 <= i < |LoopTags| => UpsertFor(svc, r, LoopTags[i]))
  }

  /** The writes of each repository, as a function the loop can apply. */
  function Plan(svc: Services): Repository -> seq<Request>
  {
    r => RepoRequests(svc, r)
  }

  /** Sends the requests in order, logging a failure after each one the CMS
      did not answer with 200, and carrying on regardless. `accepted(n)` is
      the CMS's answer to the n-th write of the run (counting from 0), and
      the first request of `reqs` is write number `from`. */
  function SendAll(reqs: seq<Request>, accepted: nat -> bool, from: nat): seq<Event>
    decreases |reqs|
  {
    if |reqs| == 0 then []
    else
      [Sent(reqs[0])] + (if accepted(from) then [] else [RequestFailed(reqs[0])])
      + SendAll(reqs[1..], accepted, from + 1)
  }

  /** The repository loop; `plan` gives the writes for one repository,
      `counter` is the 1-based number of the repository at the head of
      `repos`, `total` the reported number of pinned items, and `sent` the
      number of requests the run has sent before. */
  function RepoLoop(plan: Repository -> seq<Request>, accepted: nat -> bool, repos: seq<Repository>,
                    counter: int, total: int, sent: nat): Trace
    decreases |repos|
  {
    if |repos| == 0 then Trace([ProgressSet(Final)], Completed)
    else
      var writes := SendAll(plan(repos[0]), accepted, sent);
      if total == 0 then Trace(writes, DivideByZero)
      else if !InBar(After(total, counter)) then Trace(writes, OutOfRange)
      else
        var rest := RepoLoop(plan, accepted, repos[1..], counter + 1, total, sent + |plan(repos[0])|);
        Trace(writes + [ProgressSet(After(total, counter))] + rest.events, rest.outcome)
  }

  /** A whole run: `repos` are the pinned nodes in pin order, `total` the
      reported total count, `en` and `cs` the CMS listings read before any
      write. */
  function Run(svc: Services, accepted: nat -> bool, repos: seq<Repository>, total: int,
               en: seq<Entry>, cs: seq<Entry>): Trace
  {
    var deletes := DeleteRequests(DeleteSet(PinnedNames(repos), en, cs));
    var loop := RepoLoop(Plan(svc), accepted, repos, 1, total, |deletes|);
    Trace(SendAll(deletes, accepted, 0) + loop.events, loop.outcome)
  }

  // ---------------------------------------------------------------------------
  // Observing a trace

  /** The requests sent, in order. */
  function Requests(events: seq<Event>): seq<Request>
  {
    if |events| == 0 then []
    else (if events[0].Sent? then [events[0].request] else []) + Requests(events[1..])
  }

  /** The progress values set, in order. */
  function ProgressValues(events: seq<Event>): seq<int>
  {
    if |events| == 0 then []
    else (if events[0].ProgressSet? then [events[0].value] else []) + ProgressValues(events[1..])
  }

  /** The requests whose failure was logged, in order. */
  function Failures(events: seq<Event>): seq<Request>
  {
    if |events| == 0 then []
    else (if events[0].RequestFailed? then [events[0].request] else []) + Failures(events[1..])
  }

  /** The requests of a batch, the first being request number `from`, that
      the CMS did not answer with 200. */
  function Rejected(reqs: seq<Request>, accepted: nat -> bool, from: nat): seq<Request>
    decreases |reqs|
  {
    if |reqs| == 0 then []
    else (if accepted(from) then [] else [reqs[0]]) + Rejected(reqs[1..], accepted, from + 1)
  }

  /** The writes of the repository loop for the given repositories. */
  function LoopRequests(plan: Repository -> seq<Request>, repos: seq<Repository>): seq<Request>
  {
    if |repos| == 0 then [] else plan(repos[0]) + LoopRequests(plan, repos[1..])
  }

  /** The progress values the loop sets: one per repository, counting on
      from `counter`, then the final value; nothing more once a value cannot
      be computed or lies outside the bar. */
  function Schedule(total: int, counter: int, count: nat): seq<int>
    decreases count
  {
    if count == 0 then [Final]
    else if total == 0 || !InBar(After(total, counter)) then []
    else [After(total, counter)] + Schedule(total, counter + 1, count - 1)
  }

  /** How many of `count` repositories the loop processes, counting from
      `counter`: it stops after the first one whose value cannot be set. */
  function Steps(total: int, counter: int, count: nat): (n: nat)
    ensures n <= count
    ensures count > 0 ==> 1 <= n
    decreases count
  {
    if count == 0 then 0
    else if total == 0 || !InBar(After(total, counter)) then 1
    else 1 + Steps(total, counter + 1, count - 1)
  }

  /** How many repositories a run processes before it ends. */
  function Processed(repos: seq<Repository>, total: int): nat
  {
    Steps(total, 1, |repos|)
  }

  /** Every value the loop computes for `count` repositories can be shown. */
  predicate StaysOnBar(total: int, count: nat)
  {
    count == 0 || (total != 0 && forall k :: 1 <= k <= count ==> InBar(After(total, k)))
  }
}

=== FILE: runprops.dfy ===
/** Properties of a whole run of the pinned-projects job. */
module RunProperties {
  import opened GitHub
  import opened Projects
  import opened Cms
  import opened Progress
  import opened Reconcile

  // ---------------------------------------------------------------------------
  // Observers distribute over traces

  lemma {:induction false} RequestsAppend(a: seq<Event>, b: seq<Event>)
    ensures Requests(a + b) == Requests(a) + Requests(b)
    decreases |a|
  {
    if |a| == 0 {
      assert a + b == b;
    } else {
      assert (a + b)[1..] == a[1..] + b;
      assert (a + b)[0] == a[0];
      RequestsAppend(a[1..], b);
      var head: seq<Request> := if a[0].Sent? then [a[0].request] else [];
      assert Requests(a + b) == head + Requests(a[1..] + b);
      assert Requests(a) == head + Requests(a[1..]);
    }
  }

  lemma {:induction false} ProgressAppend(a: seq<Event>, b: seq<Event>)
    ensures ProgressValues(a + b) == ProgressValues(a) + ProgressValues(b)
    decreases |a|
  {
    if |a| == 0 {
      assert a + b == b;
    } else {
      assert (a + b)[1..] == a[1..] + b;
      assert (a + b)[0] == a[0];
      ProgressAppend(a[1..], b);
      var head: seq<int> := if a[0].ProgressSet? then [a[0].value] else [];
      assert ProgressValues(a + b) == head + ProgressValues(a[1..] + b);
      assert ProgressValues(a) == head + ProgressValues(a[1..]);
    }
  }

  /** Sending a batch sends exactly that batch, in order, whatever the CMS
      answers, and sets no progress value. */
  lemma {:induction false} SendAllObserved(reqs: seq<Request>, accepted: nat -> bool, from: nat)
    ensures Requests(SendAll(reqs, accepted, from)) == reqs
    ensures ProgressValues(SendAll(reqs, accepted, from)) == []
    decreases |reqs|
  {
    if |reqs| > 0 {
      var failed: seq<Event> := if accepted(from) then [] else [RequestFailed(reqs[0])];
      var head := [Sent(reqs[0])] + failed;
      SendAllObserved(reqs[1..], accepted, from + 1);
      RequestsAppend(head, SendAll(reqs[1..], accepted, from + 1));
      ProgressAppend(head, SendAll(reqs[1..], accepted, from + 1));
      assert Requests(head) == [reqs[0]] by {
        assert head[1..] == failed;
      }
      assert ProgressValues(head) == [] by {
        assert head[1..] == failed;
      }
      assert reqs == [reqs[0]] + reqs[1..];
    }
  }

  lemma {:induction false} FailuresAppend(a: seq<Event>, b: seq<Event>)
    ensures Failures(a + b) == Failures(a) + Failures(b)
    decreases |a|
  {
    if |a| == 0 {
      assert a + b == b;
    } else {
      assert (a + b)[1..] == a[1..] + b;
      assert (a + b)[0] == a[0];
      FailuresAppend(a[1..], b);
      var head: seq<Request> := if a[0].RequestFailed? then [a[0].request] else [];
      assert Failures(a + b) == head + Failures(a[1..] + b);
      assert Failures(a) == head + Failures(a[1..]);
    }
  }

  /** Every request the CMS rejects gets a "Request failed" line, and no
      other request does. */
  lemma {:induction false} SendAllLogsFailures(reqs: seq<Request>, accepted: nat -> bool, from: nat)
    ensures Failures(SendAll(reqs, accepted, from)) == Rejected(reqs, accepted, from)
    decreases |reqs|
  {
    if |reqs| > 0 {
      var failed: seq<Event> := if accepted(from) then [] else [RequestFailed(reqs[0])];
      var head := [Sent(reqs[0])] + failed;
      SendAllLogsFailures(reqs[1..], accepted, from + 1);
      FailuresAppend(head, SendAll(reqs[1..], accepted, from + 1));
      FailuresAppend([Sent(reqs[0])], failed);
      assert Failures([Sent(reqs[0])]) == [] + Failures([Sent(reqs[0])][1..]);
      assert [Sent(reqs[0])][1..] == [];
      if !accepted(from) {
        assert Failures(failed) == [reqs[0]] + Failures(failed[1..]);
        assert failed[1..] == [];
      }
    }
  }

  /** A single progress event. */
  lemma MarkObserved(v: int)
    ensures Requests([ProgressSet(v)]) == []
    ensures ProgressValues([ProgressSet(v)]) == [v]
    ensures Failures([ProgressSet(v)]) == []
  {
    assert [ProgressSet(v)][1..] == [];
  }

  // ---------------------------------------------------------------------------
  // The repository loop

  /** One step of the loop, for a repository followed by the rest. */
  lemma RepoLoopStep(plan: Repository -> seq<Request>, accepted: nat -> bool, repos: seq<Repository>,
                     counter: int, total: int, sent: nat)
    requires |repos| > 0 && total != 0 && InBar(After(total, counter))
    ensures var rest := RepoLoop(plan, accepted, repos[1..], counter + 1, total, sent + |plan(repos[0])|).events;
            var events := RepoLoop(plan, accepted, repos, counter, total, sent).events;
            Requests(events) == plan(repos[0]) + Requests(rest)
            && ProgressValues(events) == [After(total, counter)] + ProgressValues(rest)
            && Failures(events) == Rejected(plan(repos[0]), accepted, sent) + Failures(rest)
  {
    var writes := SendAll(plan(repos[0]), accepted, sent);
    var rest := RepoLoop(plan, accepted, repos[1..], counter + 1, total, sent + |plan(repos[0])|).events;
    var mark := [ProgressSet(After(total, counter))];
    assert RepoLoop(plan, accepted, repos, counter, total, sent).events == writes + (mark + rest);
    SendAllObserved(plan(repos[0]), accepted, sent);
    MarkObserved(After(total, counter));
    RequestsAppend(writes, mark + rest);
    RequestsAppend(mark, rest);
    ProgressAppend(writes, mark + rest);
    ProgressAppend(mark, rest);
    SendAllLogsFailures(plan(repos[0]), accepted, sent);
    FailuresAppend(writes, mark + rest);
    FailuresAppend(mark, rest);
  }

  /** The repository loop stops with a division by zero exactly when the
      reported total is 0 and there is a repository to process, and
      completes exactly when every value it computes can be shown. */
  lemma {:induction false} RepoLoopOutcome(plan: Repository -> seq<Request>, accepted: nat -> bool,
                                           repos: seq<Repository>, counter: int, total: int, sent: nat)
    ensures RepoLoop(plan, accepted, repos, counter, total, sent).outcome == DivideByZero
            <==> total == 0 && |repos| > 0
    ensures RepoLoop(plan, accepted, repos, counter, total, sent).outcome == Completed
            <==> forall k :: counter <= k < counter + |repos| ==> total != 0 && InBar(After(total, k))
    decreases |repos|
  {
    if |repos| > 0 {
      if total == 0 || !InBar(After(total, counter)) {
        assert !(total != 0 && InBar(After(total, counter)));
      } else {
        RepoLoopOutcome(plan, accepted, repos[1..], counter + 1, total, sent + |plan(repos[0])|);
      }
    }
  }

  lemma LoopRequestsCons(plan: Repository -> seq<Request>, r: Repository, rest: seq<Repository>)
    ensures LoopRequests(plan, [r] + rest) == plan(r) + LoopRequests(plan, rest)
  {
    assert ([r] + rest)[1..] == rest;
  }

  /** The repository loop sends the writes of the repositories it processes. */
  lemma {:induction false} RepoLoopRequests(plan: Repository -> seq<Request>, accepted: nat -> bool,
                                            repos: seq<Repository>, counter: int, total: int, sent: nat)
    ensures Requests(RepoLoop(plan, accepted, repos, counter, total, sent).events)
         == LoopRequests(plan, repos[..Steps(total, counter, |repos|)])
    decreases |repos|
  {
    if |repos| == 0 {
      MarkObserved(Final);
      assert repos[..0] == [];
    } else if total == 0 || !InBar(After(total, counter)) {
      SendAllObserved(plan(repos[0]), accepted, sent);
      assert repos[..1] == [repos[0]];
      assert LoopRequests(plan, [repos[0]]) == plan(repos[0]) + LoopRequests(plan, []);
    } else {
      RepoLoopStep(plan, accepted, repos, counter, total, sent);
      RepoLoopRequests(plan, accepted, repos[1..], counter + 1, total, sent + |plan(repos[0])|);
      ProcessedPrefix(plan, repos, counter, total);
    }
  }

  lemma {:induction false} RejectedAppend(a: seq<Request>, b: seq<Request>, accepted: nat -> bool, from: nat)
    ensures Rejected(a + b, accepted, from) == Rejected(a, accepted, from) + Rejected(b, accepted, from + |a|)
    decreases |a|
  {
    if |a| == 0 {
      assert a + b == b;
    } else {
      assert (a + b)[1..] == a[1..] + b;
      assert (a + b)[0] == a[0];
      RejectedAppend(a[1..], b, accepted, from + 1);
    }
  }

  /** The repository loop logs a failure for exactly the writes it sends
      that the CMS rejects. */
  lemma {:induction false} RepoLoopFailures(plan: Repository -> seq<Request>, accepted: nat -> bool,
                                            repos: seq<Repository>, counter: int, total: int, sent: nat)
    ensures Failures(RepoLoop(plan, accepted, repos, counter, total, sent).events)
         == Rejected(LoopRequests(plan, repos[..Steps(total, counter, |repos|)]), accepted, sent)
    decreases |repos|
  {
    if |repos| == 0 {
      MarkObserved(Final);
      assert repos[..0] == [];
    } else if total == 0 || !InBar(After(total, counter)) {
      SendAllLogsFailures(plan(repos[0]), accepted, sent);
      assert repos[..1] == [repos[0]];
      LoopRequestsCons(plan, repos[0], []);
      assert plan(repos[0]) + [] == plan(repos[0]);
    } else {
      RepoLoopFailures(plan, accepted, repos[1..], counter + 1, total, sent + |plan(repos[0])|);
      RepoLoopFailuresStep(plan, accepted, repos, counter, total, sent);
    }
  }

  /** One step of `RepoLoopFailures`, given its claim for the rest. */
  lemma RepoLoopFailuresStep(plan: Repository -> seq<Request>, accepted: nat -> bool,
                             repos: seq<Repository>, counter: int, total: int, sent: nat)
    requires |repos| > 0 && total != 0 && InBar(After(total, counter))
    requires Failures(RepoLoop(plan, accepted, repos[1..], counter + 1, total, sent + |plan(repos[0])|).events)
          == Rejected(LoopRequests(plan, repos[1..][..Steps(total, counter + 1, |repos| - 1)]), accepted,
                      sent + |plan(repos[0])|)
    ensures Failures(RepoLoop(plan, accepted, repos, counter, total, sent).events)
         == Rejected(LoopRequests(plan, repos[..Steps(total, counter, |repos|)]), accepted, sent)
  {
    RepoLoopStep(plan, accepted, repos, counter, total, sent);
    ProcessedPrefix(plan, repos, counter, total);
    ChainFailures(RepoLoop(plan, accepted, repos, counter, total, sent).events,
                  RepoLoop(plan, accepted, repos[1..], counter + 1, total, sent + |plan(repos[0])|).events,
                  plan(repos[0]), LoopRequests(plan, repos[1..][..Steps(total, counter + 1, |repos| - 1)]),
                  LoopRequests(plan, repos[..Steps(total, counter, |repos|)]), accepted, sent);
  }

  /** When the head repository's value can be shown, the writes of the
      processed prefix are the head's writes followed by those of the
      processed prefix of the rest. */
  lemma ProcessedPrefix(plan: Repository -> seq<Request>, repos: seq<Repository>, counter: int, total: int)
    requires |repos| > 0 && total != 0 && InBar(After(total, counter))
    ensures LoopRequests(plan, repos[..Steps(total, counter, |repos|)])
         == plan(repos[0]) + LoopRequests(plan, repos[1..][..Steps(total, counter + 1, |repos| - 1)])
  {
    var rest := repos[1..];
    var n := Steps(total, counter + 1, |rest|);
    assert Steps(total, counter, |repos|) == n + 1;
    assert repos[..n + 1] == [repos[0]] + rest[..n];
    LoopRequestsCons(plan, repos[0], rest[..n]);
  }

  /** The failure lines of one step followed by the rest of a log. */
  lemma ChainFailures(events: seq<Event>, rest: seq<Event>, first: seq<Request>, later: seq<Request>,
                      whole: seq<Request>, accepted: nat -> bool, sent: nat)
    requires Failures(events) == Rejected(first, accepted, sent) + Failures(rest)
    requires Failures(rest) == Rejected(later, accepted, sent + |first|)
    requires whole == first + later
    ensures Failures(events) == Rejected(whole, accepted, sent)
  {
    RejectedAppend(first, later, accepted, sent);
  }

  /** The repository loop sets the scheduled values. */
  lemma {:induction false} RepoLoopProgress(plan: Repository -> seq<Request>, accepted: nat -> bool,
                                            repos: seq<Repository>, counter: int, total: int, sent: nat)
    ensures ProgressValues(RepoLoop(plan, accepted, repos, counter, total, sent).events)
         == Schedule(total, counter, |repos|)
    decreases |repos|
  {
    if |repos| == 0 {
      MarkObserved(Final);
    } else if total == 0 || !InBar(After(total, counter)) {
      SendAllObserved(plan(repos[0]), accepted, sent);
    } else {
      RepoLoopStep(plan, accepted, repos, counter, total, sent);
      RepoLoopProgress(plan, accepted, repos[1..], counter + 1, total, sent + |plan(repos[0])|);
    }
  }

  /** The loop writes each processed repository's plan in order. */
  lemma {:induction false} LoopRequestsShape(plan: Repository -> seq<Request>, repos: seq<Repository>)
    requires forall r :: r in repos ==> |plan(r)| == 2
    ensures |LoopRequests(plan, repos)| == 2 * |repos|
    ensures forall i :: 0 <= i < |repos| ==>
              LoopRequests(plan, repos)[2 * i] == plan(repos[i])[0]
              && LoopRequests(plan, repos)[2 * i + 1] == plan(repos[i])[1]
    decreases |repos|
  {
    if |repos| > 0 {
      var head := plan(repos[0]);
      var tail := LoopRequests(plan, repos[1..]);
      assert forall r :: r in repos[1..] ==> r in repos;
      LoopRequestsShape(plan, repos[1..]);
      assert repos[0] in repos;
      forall i | 0 <= i < |repos|
        ensures (head + tail)[2 * i] == plan(repos[i])[0]
        ensures (head + tail)[2 * i + 1] == plan(repos[i])[1]
      {
        if i > 0 {
          assert repos[1..][i - 1] == repos[i];
          assert (head + tail)[2 * i] == tail[2 * (i - 1)];
          assert (head + tail)[2 * i + 1] == tail[2 * (i - 1) + 1];
        }
      }
    }
  }

  /** While every value can be shown, the scheduled values are one per
      repository, then 100. */
  lemma {:induction false} ScheduleShape(total: int, counter: int, count: nat)
    requires total != 0
    requires forall k :: counter <= k < counter + count ==> InBar(After(total, k))
    ensures |Schedule(total, counter, count)| == count + 1
    ensures Schedule(total, counter, count)[count] == Final
    ensures forall i :: 0 <= i < count ==> Schedule(total, counter, count)[i] == After(total, counter + i)
    decreases count
  {
    if count > 0 {
      assert InBar(After(total, counter));
      ScheduleShape(total, counter + 1, count - 1);
      var s := Schedule(total, counter, count);
      var t := Schedule(total, counter + 1, count - 1);
      forall i | 0 <= i < count
        ensures s[i] == After(total, counter + i)
      {
        if i > 0 {
          assert s[i] == t[i - 1];
          assert counter + 1 + (i - 1) == counter + i;
        }
      }
    }
  }

  /** Whatever the reported total, the values the loop sets from the first
      repository on lie between 0 and 100 and never decrease: a value
      outside the bar stops the loop instead of being shown. */
  lemma {:induction false} ScheduleBounded(total: int, counter: int, count: nat)
    requires 1 <= counter
    ensures forall i, j :: 0 <= i <= j < |Schedule(total, counter, count)| ==>
              0 <= Schedule(total, counter, count)[i] <= Schedule(total, counter, count)[j] <= 100
    decreases count
  {
    var s := Schedule(total, counter, count);
    if count > 0 && total != 0 && InBar(After(total, counter)) {
      var t := Schedule(total, counter + 1, count - 1);
      ScheduleBounded(total, counter + 1, count - 1);
      assert s == [After(total, counter)] + t;
      if count > 1 && total != 0 && InBar(After(total, counter + 1)) {
        assert t[0] == After(total, counter + 1);
        AfterMonotoneInBar(total, counter, counter + 1);
      }
      forall i, j | 0 <= i <= j < |s|
        ensures 0 <= s[i] <= s[j] <= 100
      {
        if i > 0 {
          assert s[i] == t[i - 1] && s[j] == t[j - 1];
        } else if j > 0 {
          assert s[j] == t[j - 1];
          assert t[0] <= t[j - 1];
        }
      }
    }
  }

  /** While every value can be shown, the loop sets them all, then 100. */
  lemma ScheduleOnBar(total: int, count: nat)
    requires StaysOnBar(total, count)
    ensures |Schedule(total, 1, count)| == count + 1 && Schedule(total, 1, count)[count] == Final
    ensures forall i :: 0 <= i < count ==> Schedule(total, 1, count)[i] == After(total, i + 1)
  {
    if count > 0 {
      assert total != 0 && InBar(After(total, 1));
      ScheduleShape(total, 1, count);
    }
  }

  /** Every value for `count` repositories can be shown exactly when the last
      one can: the values never decrease once the first lies on the bar. */
  lemma {:induction false} StaysOnBarAtLast(total: int, count: nat)
    ensures StaysOnBar(total, count) <==> count == 0 || (total != 0 && InBar(After(total, count)))
  {
    if count > 0 && total != 0 && InBar(After(total, count)) {
      var q := TruncDiv(100, total);
      NegativeTimesPositive(q, count);
      forall k | 1 <= k <= count
        ensures InBar(After(total, k))
      {
        MulMonotone(q, 0, k);
        MulMonotone(q, k, count);
      }
    }
  }

  /** A reported total below the number of nodes need not stop the run: 34
      for 35 nodes shows at most 70, and 200 for 300 nodes, or any total
      below -100, shows 0 throughout; a total from -100 to -1 stops it at
      the first node. */
  lemma UndercountedTotals()
    ensures StaysOnBar(34, 35) && StaysOnBar(200, 300) && StaysOnBar(-200, 3)
    ensures !StaysOnBar(-1, 1) && !StaysOnBar(1, 2)
  {
    assert After(34, 35) == 70 && After(200, 300) == 0 && After(-200, 3) == 0;
    assert After(-1, 1) == -100 && After(1, 2) == 200;
    StaysOnBarAtLast(34, 35);
    StaysOnBarAtLast(200, 300);
    StaysOnBarAtLast(-200, 3);
    StaysOnBarAtLast(-1, 1);
    StaysOnBarAtLast(1, 2);
  }

  /** While the reported total covers every repository, every value the
      loop computes can be shown. */
  lemma WithinTotalStaysOnBar(total: int, count: nat)
    requires 0 < total && count <= total
    ensures StaysOnBar(total, count)
  {
    forall k | 1 <= k <= count
      ensures InBar(After(total, k))
    {
      AfterInRange(total, k);
    }
  }

  /** The loop processes all `count` repositories exactly when there is at
      most one, or the total is not 0 and the value of every repository but
      the last can be shown: the last one's writes go out before its value
      is set, so it counts as processed even when that value fails. */
  lemma {:induction false} StepsCoverAll(total: int, counter: int, count: nat)
    ensures Steps(total, counter, count) == count
            <==> count <= 1
                 || (total != 0 && forall k :: counter <= k < counter + count - 1 ==> InBar(After(total, k)))
    decreases count
  {
    if count >= 2 && total != 0 && InBar(After(total, counter)) {
      StepsCoverAll(total, counter + 1, count - 1);
      assert Steps(total, counter, count) == 1 + Steps(total, counter + 1, count - 1);
      if forall k :: counter + 1 <= k < counter + count - 1 ==> InBar(After(total, k)) {
        forall k | counter <= k < counter + count - 1
          ensures InBar(After(total, k))
        {
          if k != counter {
            assert counter + 1 <= k < counter + count - 1;
          }
        }
      }
    } else if count >= 2 {
      assert Steps(total, counter, count) == 1;
    }
  }

  /** A run whose every value can be shown processes every repository; one
      stopped by a zero total processes exactly the first. */
  lemma ProcessedAll(repos: seq<Repository>, total: int)
    ensures StaysOnBar(total, |repos|) ==> Processed(repos, total) == |repos|
    ensures total == 0 && |repos| > 0 ==> Processed(repos, total) == 1
  {
    StepsCoverAll(total, 1, |repos|);
    if StaysOnBar(total, |repos|) && |repos| >= 2 {
      forall k | 1 <= k < 1 + |repos| - 1
        ensures InBar(After(total, k))
      {
        assert 1 <= k <= |repos|;
      }
    }
  }

  // ---------------------------------------------------------------------------
  // Whole runs

  /** Each repository's plan is its `en` write followed by its `cz` write. */
  lemma PlanShape(svc: Services)
    ensures forall r :: |Plan(svc)(r)| == 2
    ensures forall r :: Plan(svc)(r)[0] == UpsertFor(svc, r, "en") && Plan(svc)(r)[1] == UpsertFor(svc, r, "cz")
  {
  }

  /** Everything a run sends: one DELETE per stale listed entry, then the two
      writes of every repository it processes. */
  lemma RunRequests(svc: Services, accepted: nat -> bool, repos: seq<Repository>, total: int,
                    en: seq<Entry>, cs: seq<Entry>)
    ensures Requests(Run(svc, accepted, repos, total, en, cs).events)
         == DeleteRequests(DeleteSet(PinnedNames(repos), en, cs))
            + LoopRequests(Plan(svc), repos[..Processed(repos, total)])
  {
    var stale := DeleteSet(PinnedNames(repos), en, cs);
    var loop := RepoLoop(Plan(svc), accepted, repos, 1, total, |DeleteRequests(stale)|);
    RequestsAppend(SendAll(DeleteRequests(stale), accepted, 0), loop.events);
    SendAllObserved(DeleteRequests(stale), accepted, 0);
    RepoLoopRequests(Plan(svc), accepted, repos, 1, total, |DeleteRequests(stale)|);
  }

  /** Every request of a run that the CMS rejects, and only those, is
      followed in the log by a failure line. */
  lemma RunLogsFailures(svc: Services, accepted: nat -> bool, repos: seq<Repository>, total: int,
                        en: seq<Entry>, cs: seq<Entry>)
    ensures Failures(Run(svc, accepted, repos, total, en, cs).events)
         == Rejected(Requests(Run(svc, accepted, repos, total, en, cs).events), accepted, 0)
  {
    var deletes := DeleteRequests(DeleteSet(PinnedNames(repos), en, cs));
    var writes := LoopRequests(Plan(svc), repos[..Processed(repos, total)]);
    var first := SendAll(deletes, accepted, 0);
    var loop := RepoLoop(Plan(svc), accepted, repos, 1, total, |deletes|).events;
    var events := Run(svc, accepted, repos, total, en, cs).events;
    assert events == first + loop;
    RunRequests(svc, accepted, repos, total, en, cs);
    SendAllLogsFailures(deletes, accepted, 0);
    RepoLoopFailures(Plan(svc), accepted, repos, 1, total, |deletes|);
    LogsOfRun(events, first, loop, Requests(events), deletes, writes, accepted);
  }

  /** The failure lines of a log made of two batches, given those of each. */
  lemma LogsOfRun(events: seq<Event>, first: seq<Event>, second: seq<Event>, reqs: seq<Request>,
                  a: seq<Request>, b: seq<Request>, accepted: nat -> bool)
    requires events == first + second && reqs == a + b
    requires Failures(first) == Rejected(a, accepted, 0)
    requires Failures(second) == Rejected(b, accepted, |a|)
    ensures Failures(events) == Rejected(reqs, accepted, 0)
  {
    LogsOfTwoBatches(first, second, a, b, accepted, 0);
  }

  /** Failure lines of two consecutive batches of requests. */
  lemma LogsOfTwoBatches(first: seq<Event>, second: seq<Event>, a: seq<Request>, b: seq<Request>,
                         accepted: nat -> bool, from: nat)
    requires Failures(first) == Rejected(a, accepted, from)
    requires Failures(second) == Rejected(b, accepted, from + |a|)
    ensures Failures(first + second) == Rejected(a + b, accepted, from)
  {
    FailuresAppend(first, second);
    RejectedAppend(a, b, accepted, from);
  }

  /** The writes of the repository loop are never deletes. */
  lemma LoopHasNoDeletes(svc: Services, repos: seq<Repository>)
    ensures forall req :: req in LoopRequests(Plan(svc), repos) ==> !req.Delete?
  {
    var upserts := LoopRequests(Plan(svc), repos);
    PlanShape(svc);
    LoopRequestsShape(Plan(svc), repos);
    forall k | 0 <= k < |upserts| ensures !upserts[k].Delete? {
      var i := k / 2;
      assert k == 2 * i || k == 2 * i + 1;
    }
  }

  /** Store ids identify listed entries. */
  predicate UniqueIds(listed: seq<Entry>)
  {
    forall i, j :: 0 <= i < |listed| && 0 <= j < |listed| && listed[i].id == listed[j].id ==> listed[i] == listed[j]
  }

  /** The ids a run deletes are exactly the ids of the stale entries. */
  lemma RunDeletedIds(svc: Services, accepted: nat -> bool, repos: seq<Repository>, total: int,
                      en: seq<Entry>, cs: seq<Entry>, id: int)
    ensures Delete(id) in Requests(Run(svc, accepted, repos, total, en, cs).events)
            <==> exists s :: s in DeleteSet(PinnedNames(repos), en, cs) && s.id == id
  {
    RunRequests(svc, accepted, repos, total, en, cs);
    LoopHasNoDeletes(svc, repos[..Processed(repos, total)]);
    DeletedIdsOf(DeleteSet(PinnedNames(repos), en, cs), LoopRequests(Plan(svc), repos[..Processed(repos, total)]), id);
  }

  /** In a batch of deletes followed by other writes, the deleted ids are
      those of the batch. */
  lemma DeletedIdsOf(stale: seq<Entry>, writes: seq<Request>, id: int)
    requires forall req :: req in writes ==> !req.Delete?
    ensures Delete(id) in DeleteRequests(stale) + writes <==> exists s :: s in stale && s.id == id
  {
    var reqs := DeleteRequests(stale) + writes;
    if s :| s in stale && s.id == id {
      var k :| 0 <= k < |stale| && stale[k] == s;
      assert reqs[k] == Delete(id);
    }
    if Delete(id) in reqs {
      var k :| 0 <= k < |reqs| && reqs[k] == Delete(id);
      assert k < |stale|;
      assert stale[k] in stale;
    }
  }

  /** A listed entry is deleted exactly when its title is not pinned: no
      pinned title is ever deleted, and an unpinned one is deleted under
      every locale it is listed in. */
  lemma RunDeletes(svc: Services, accepted: nat -> bool, repos: seq<Repository>, total: int,
                   en: seq<Entry>, cs: seq<Entry>, e: Entry)
    requires UniqueIds(en + cs)
    requires e in en + cs
    ensures Delete(e.id) in Requests(Run(svc, accepted, repos, total, en, cs).events)
            <==> e.title !in PinnedNames(repos)
  {
    var stale := DeleteSet(PinnedNames(repos), en, cs);
    RunDeletedIds(svc, accepted, repos, total, en, cs, e.id);
    if s :| s in stale && s.id == e.id {
      SameIdSameEntry(en + cs, s, e);
    }
  }

  lemma SameIdSameEntry(listed: seq<Entry>, s: Entry, e: Entry)
    requires UniqueIds(listed) && s in listed && e in listed && s.id == e.id
    ensures s == e
  {
    var a :| 0 <= a < |listed| && listed[a] == s;
    var b :| 0 <= b < |listed| && listed[b] == e;
  }

  /** A store that already matches the pinned set sees no DELETE. */
  lemma SynchronisedStoreNoDeletes(svc: Services, accepted: nat -> bool, repos: seq<Repository>, total: int,
                                   en: seq<Entry>, cs: seq<Entry>)
    requires forall e :: e in en + cs ==> e.title in PinnedNames(repos)
    ensures forall req :: req in Requests(Run(svc, accepted, repos, total, en, cs).events) ==> !req.Delete?
  {
    var stale := DeleteSet(PinnedNames(repos), en, cs);
    RunRequests(svc, accepted, repos, total, en, cs);
    LoopHasNoDeletes(svc, repos[..Processed(repos, total)]);
    assert |stale| == 0;
    assert DeleteRequests(stale) == [];
  }

  /** The two writes of one repository: the `en` entry then the `cs` entry,
      both carrying the repository's shared fields, so both agree on them. */
  lemma RepositoryWrites(svc: Services, r: Repository)
    ensures !UpsertFor(svc, r, "en").Delete? && !UpsertFor(svc, r, "cz").Delete?
    ensures UpsertFor(svc, r, "en").project.locale == "en" && UpsertFor(svc, r, "cz").project.locale == "cs"
    ensures SharedFrom(UpsertFor(svc, r, "en").project, r) && SharedFrom(UpsertFor(svc, r, "cz").project, r)
    ensures SameShared(UpsertFor(svc, r, "en").project, UpsertFor(svc, r, "cz").project)
  {
  }

  /** The writes after the deletes: for each processed repository its `en`
      write then its `cz` write. */
  lemma RunWriteOrder(svc: Services, accepted: nat -> bool, repos: seq<Repository>, total: int,
                      en: seq<Entry>, cs: seq<Entry>)
    ensures var reqs := Requests(Run(svc, accepted, repos, total, en, cs).events);
            var d := |DeleteSet(PinnedNames(repos), en, cs)|;
            |reqs| == d + 2 * Processed(repos, total)
            && forall i :: 0 <= i < Processed(repos, total) ==>
                 reqs[d + 2 * i] == UpsertFor(svc, repos[i], "en")
                 && reqs[d + 2 * i + 1] == UpsertFor(svc, repos[i], "cz")
  {
    var deletes := DeleteRequests(DeleteSet(PinnedNames(repos), en, cs));
    var reqs := Requests(Run(svc, accepted, repos, total, en, cs).events);
    assert |deletes| == |DeleteSet(PinnedNames(repos), en, cs)|;
    RunRequests(svc, accepted, repos, total, en, cs);
    WritesAfterDeletes(reqs, deletes, svc, repos, Processed(repos, total));
  }

  /** A completed run sends, after the deletes, exactly one `en` and one
      `cz` write for every pinned repository, in pinning order: an upsert of
      the entry titled with the repository's name in each locale. */
  lemma RunCompletedWrites(svc: Services, accepted: nat -> bool, repos: seq<Repository>, total: int,
                           en: seq<Entry>, cs: seq<Entry>)
    ensures var run := Run(svc, accepted, repos, total, en, cs);
            var reqs := Requests(run.events);
            var d := |DeleteSet(PinnedNames(repos), en, cs)|;
            run.outcome == Completed ==>
              |reqs| == d + 2 * |repos|
              && forall i :: 0 <= i < |repos| ==>
                   reqs[d + 2 * i] == UpsertFor(svc, repos[i], "en")
                   && reqs[d + 2 * i + 1] == UpsertFor(svc, repos[i], "cz")
  {
    RunOutcome(svc, accepted, repos, total, en, cs);
    ProcessedAll(repos, total);
    RunWriteOrder(svc, accepted, repos, total, en, cs);
  }

  /** A run stopped by a zero total has sent, after the deletes, only the
      first repository's `en` and `cz` writes. */
  lemma RunDivideByZeroWrites(svc: Services, accepted: nat -> bool, repos: seq<Repository>, total: int,
                              en: seq<Entry>, cs: seq<Entry>)
    ensures var run := Run(svc, accepted, repos, total, en, cs);
            var reqs := Requests(run.events);
            var d := |DeleteSet(PinnedNames(repos), en, cs)|;
            run.outcome == DivideByZero ==>
              |repos| > 0 && |reqs| == d + 2
              && reqs[d] == UpsertFor(svc, repos[0], "en")
              && reqs[d + 1] == UpsertFor(svc, repos[0], "cz")
  {
    RunOutcome(svc, accepted, repos, total, en, cs);
    ProcessedAll(repos, total);
    RunWriteOrder(svc, accepted, repos, total, en, cs);
  }

  /** In deletes followed by the loop's writes for the first `n`
      repositories, the `en` and `cz` writes of the i-th repository follow
      the deletes at offsets 2i and 2i+1. */
  lemma WritesAfterDeletes(reqs: seq<Request>, deletes: seq<Request>, svc: Services,
                           repos: seq<Repository>, n: nat)
    requires n <= |repos|
    requires reqs == deletes + LoopRequests(Plan(svc), repos[..n])
    ensures |reqs| == |deletes| + 2 * n
    ensures forall i :: 0 <= i < n ==>
              reqs[|deletes| + 2 * i] == UpsertFor(svc, repos[i], "en")
              && reqs[|deletes| + 2 * i + 1] == UpsertFor(svc, repos[i], "cz")
  {
    var done := repos[..n];
    var writes := LoopRequests(Plan(svc), done);
    PlanShape(svc);
    LoopRequestsShape(Plan(svc), done);
    forall i | 0 <= i < n
      ensures reqs[|deletes| + 2 * i] == UpsertFor(svc, repos[i], "en")
      ensures reqs[|deletes| + 2 * i + 1] == UpsertFor(svc, repos[i], "cz")
    {
      assert done[i] == repos[i];
      assert reqs[|deletes| + 2 * i] == writes[2 * i];
      assert reqs[|deletes| + 2 * i + 1] == writes[2 * i + 1];
    }
  }

  /** A run stops with a division by zero exactly when the reported total is
      0 and there is a repository to process, having set no progress value;
      it completes exactly when every value it computes can be shown, and
      otherwise stops with the bar's range error. */
  lemma RunOutcome(svc: Services, accepted: nat -> bool, repos: seq<Repository>, total: int,
                   en: seq<Entry>, cs: seq<Entry>)
    ensures Run(svc, accepted, repos, total, en, cs).outcome == DivideByZero <==> total == 0 && |repos| > 0
    ensures Run(svc, accepted, repos, total, en, cs).outcome == Completed <==> StaysOnBar(total, |repos|)
    ensures Run(svc, accepted, repos, total, en, cs).outcome == DivideByZero ==>
              ProgressValues(Run(svc, accepted, repos, total, en, cs).events) == []
  {
    var stale := DeleteSet(PinnedNames(repos), en, cs);
    var loop := RepoLoop(Plan(svc), accepted, repos, 1, total, |DeleteRequests(stale)|);
    SendAllObserved(DeleteRequests(stale), accepted, 0);
    ProgressAppend(SendAll(DeleteRequests(stale), accepted, 0), loop.events);
    RepoLoopOutcome(Plan(svc), accepted, repos, 1, total, |DeleteRequests(stale)|);
    RepoLoopProgress(Plan(svc), accepted, repos, 1, total, |DeleteRequests(stale)|);
  }

  /** A run stops with the bar's range error exactly when there is a node,
      the reported total is not 0, and the value for the last node,
      `(100 / total) * |repos|`, lies outside 0..100. */
  lemma RunRangeError(svc: Services, accepted: nat -> bool, repos: seq<Repository>, total: int,
                      en: seq<Entry>, cs: seq<Entry>)
    ensures Run(svc, accepted, repos, total, en, cs).outcome == OutOfRange
            <==> |repos| > 0 && total != 0 && !InBar(After(total, |repos|))
  {
    RunOutcome(svc, accepted, repos, total, en, cs);
    StaysOnBarAtLast(total, |repos|);
  }

  /** A run whose reported total covers every node always completes. */
  lemma RunWithinTotalCompletes(svc: Services, accepted: nat -> bool, repos: seq<Repository>, total: int,
                                en: seq<Entry>, cs: seq<Entry>)
    requires 0 < total && |repos| <= total
    ensures Run(svc, accepted, repos, total, en, cs).outcome == Completed
  {
    WithinTotalStaysOnBar(total, |repos|);
    RunOutcome(svc, accepted, repos, total, en, cs);
  }

  /** With a reported total of 1 and two nodes, the bar shows 100 after the
      first repository, and the value 200 for the second stops the run. */
  lemma OverCountedRunStops(svc: Services, accepted: nat -> bool, r1: Repository, r2: Repository,
                            en: seq<Entry>, cs: seq<Entry>)
    ensures Run(svc, accepted, [r1, r2], 1, en, cs).outcome == OutOfRange
    ensures ProgressValues(Run(svc, accepted, [r1, r2], 1, en, cs).events) == [100]
  {
    assert After(1, 1) == 100 && After(1, 2) == 200;
    assert !StaysOnBar(1, 2);
    RunOutcome(svc, accepted, [r1, r2], 1, en, cs);
    RunSchedule(svc, accepted, [r1, r2], 1, en, cs);
  }

  /** A run sets the scheduled progress values. */
  lemma RunSchedule(svc: Services, accepted: nat -> bool, repos: seq<Repository>, total: int,
                    en: seq<Entry>, cs: seq<Entry>)
    ensures ProgressValues(Run(svc, accepted, repos, total, en, cs).events) == Schedule(total, 1, |repos|)
  {
    var stale := DeleteSet(PinnedNames(repos), en, cs);
    var loop := RepoLoop(Plan(svc), accepted, repos, 1, total, |DeleteRequests(stale)|);
    SendAllObserved(DeleteRequests(stale), accepted, 0);
    ProgressAppend(SendAll(DeleteRequests(stale), accepted, 0), loop.events);
    RepoLoopProgress(Plan(svc), accepted, repos, 1, total, |DeleteRequests(stale)|);
  }

  /** The progress values of a run that completes: the value for each
      repository, then 100. */
  lemma RunProgress(svc: Services, accepted: nat -> bool, repos: seq<Repository>, total: int,
                    en: seq<Entry>, cs: seq<Entry>)
    requires StaysOnBar(total, |repos|)
    ensures var pv := ProgressValues(Run(svc, accepted, repos, total, en, cs).events);
            |pv| == |repos| + 1 && pv[|repos|] == 100
            && forall i :: 0 <= i < |repos| ==> pv[i] == After(total, i + 1)
  {
    RunSchedule(svc, accepted, repos, total, en, cs);
    ScheduleOnBar(total, |repos|);
  }

  /** Whatever the reported total, the progress values a run sets stay
      between 0 and 100 and never decrease. */
  lemma RunProgressMonotone(svc: Services, accepted: nat -> bool, repos: seq<Repository>, total: int,
                            en: seq<Entry>, cs: seq<Entry>)
    ensures var pv := ProgressValues(Run(svc, accepted, repos, total, en, cs).events);
            forall i, j :: 0 <= i <= j < |pv| ==> 0 <= pv[i] <= pv[j] <= 100
  {
    RunSchedule(svc, accepted, repos, total, en, cs);
    ScheduleBounded(total, 1, |repos|);
  }

  /** A CMS that rejects writes changes only the log: the same requests are
      sent, the same progress values set, and the run ends the same way. */
  lemma FailuresDoNotStopRun(svc: Services, accepted1: nat -> bool, accepted2: nat -> bool,
                             repos: seq<Repository>, total: int, en: seq<Entry>, cs: seq<Entry>)
    ensures Requests(Run(svc, accepted1, repos, total, en, cs).events)
         == Requests(Run(svc, accepted2, repos, total, en, cs).events)
    ensures ProgressValues(Run(svc, accepted1, repos, total, en, cs).events)
         == ProgressValues(Run(svc, accepted2, repos, total, en, cs).events)
    ensures Run(svc, accepted1, repos, total, en, cs).outcome == Run(svc, accepted2, repos, total, en, cs).outcome
  {
    RunRequests(svc, accepted1, repos, total, en, cs);
    RunRequests(svc, accepted2, repos, total, en, cs);
    var stale := DeleteSet(PinnedNames(repos), en, cs);
    SendAllObserved(DeleteRequests(stale), accepted1, 0);
    SendAllObserved(DeleteRequests(stale), accepted2, 0);
    ProgressAppend(SendAll(DeleteRequests(stale), accepted1, 0), RepoLoop(Plan(svc), accepted1, repos, 1, total, |DeleteRequests(stale)|).events);
    ProgressAppend(SendAll(DeleteRequests(stale), accepted2, 0), RepoLoop(Plan(svc), accepted2, repos, 1, total, |DeleteRequests(stale)|).events);
    RepoLoopProgress(Plan(svc), accepted1, repos, 1, total, |DeleteRequests(stale)|);
    RepoLoopProgress(Plan(svc), accepted2, repos, 1, total, |DeleteRequests(stale)|);
    RepoLoopOutcome(Plan(svc), accepted1, repos, 1, total, |DeleteRequests(stale)|);
    RepoLoopOutcome(Plan(svc), accepted2, repos, 1, total, |DeleteRequests(stale)|);
  }
}

=== FILE: wrappers.dfy ===
/** The optional-value datatype used for every nullable field of the job
    (C# `string?`, `int?`) and for the result of the README pattern match. */
module Wrappers {

  datatype Option<+T> = None | Some(value: T)
}
